=== FILE: README.md ===
# Scout Alarm binary sensor: a Dafny model of the sensor state mapper

The Scout Alarm integration exposes a security system's door panels, access
sensors, motion sensors, smoke alarms, water sensors and glass-break sensors
as binary (on/off) entities of a home-automation host. Each entity holds one
cached device record: a JSON dict with `id`, `name`, `type` and a nested
`reported` object. Everything the entity shows is computed from that record:

- `is_on`, from the device type and `reported.trigger.state`;
- `device_class`, from the device type, or from the device name;
- `available`, from `reported.timedout`;
- `device_state_attributes`, with a derived `battery_low` flag.

Setup creates one entity per listed device whose type is supported. A push
notification makes an entity ask for a refresh when the notification's `id`
is its own.

The model is functional. A record is a `map<string, JValue>` over a small
JSON datatype (`json.dfy`). Each property is a total function that returns
`Result<_, Fault>`. A Python exception becomes `Failure(KeyError(k))`,
`Failure(TypeError)` or `Failure(AttributeError)`, at the point in
evaluation order where the Python code would raise it. Python truthiness
(`if not x`), `dict[key]`, `dict.get`, `is None`, `is not True` and `==`
(where `True == 1`) are modelled explicitly.

The vendor constants are parameters. These are the `SCOUT_DEVICE_TYPE_*` and
`SCOUT_DEVICE_STATE_*` strings and `ATTRIBUTION`; their values live in a
`const.py` that is not part of this model. Every property therefore holds for
every choice of constants. Where the order of an `if/elif` chain could change
the outcome, the property requires `TypesDistinct`, which says the six type
codes are pairwise different. The `"ok"` literal that a missing CO reading
defaults to is kept separate from the ok-state constant, as `OkLiteral`. The
one lemma that needs the two to be equal (`IsOnSmokeWithoutCo`) takes that as
an explicit requirement.

The two `if/elif` chains use different orders. `is_on` tests door, access,
motion, water, glass break, then smoke. `device_class` tests door, smoke,
motion, water, then glass break. When the type codes are distinct, the two
chains are proved equal to the reference functions `BinarySensor.IsOnByKind`
and `BinarySensor.DeviceClassByKind`. Those dispatch on the kind through the
tables of `SensorKind` (`OnRule`, `ClassRule` and `NameClass`); that module is
a closed enumeration of the six kinds plus `Unsupported`.

Files:

- `wrappers.dfy`: `Option` and `Result`.
- `json.dfy`: JSON values, truthiness, subscript, `get`, and Python `==`.
- `text.dfy`: ASCII `lower()` and substring search.
- `scout_const.dfy`: the vendor constants and the supported-type list.
- `device_record.dfy`: the record and `reported_trigger`.
- `sensor_kind.dfy`: the reference tables.
- `binary_sensor.dfy`: the entity's properties and their lemmas.
- `setup.dfy`: the setup filter.
- `scenarios.dfy`: worked records.

A missing `reported` is not harmless everywhere. `is_on` reads it with
`.get` and treats its absence as off. But `available` and
`device_state_attributes` subscript `self._device['reported']`, so they raise
`KeyError` when it is missing and `AttributeError` when it is not a dict.
`Available` and `StateAttributes` model that, and their contracts say exactly
when it happens.

## Model

| member | source | states |
|---|---|---|
| Json.Truthy | custom_components/scout_alarm/binary_sensor.py:89-90 | `if not x` treats exactly None, False, 0, "", [] and {} as absent |
| Json.Subscript | custom_components/scout_alarm/binary_sensor.py:95 | `x[key]` succeeds iff `x` is a dict holding `key`; a dict without it raises KeyError(key), anything else TypeError |
| Json.DictGet | custom_components/scout_alarm/binary_sensor.py:168-172 | `x.get(key)` succeeds iff `x` is a dict, giving the value or None for a missing key; anything else raises AttributeError |
| BinarySensor.Field | custom_components/scout_alarm/binary_sensor.py:92 | `device[key]` on the record is the stored value when the record holds `key`, else KeyError(key) |
| Json.PyEq | custom_components/scout_alarm/binary_sensor.py:175 | Python `==`: every value equals itself, and a comparison involving a string or None is plain equality |
| SensorKind.CoOrOk | custom_components/scout_alarm/binary_sensor.py:107-109 | a missing or null `co` reading becomes the "ok" literal; any other reading is kept |
| ScoutConst.SupportedTypes | custom_components/scout_alarm/binary_sensor.py:40-47 | the six supported codes; the distinctness assumption holds iff the list has no duplicates |
| ScoutConst.IsSupported | custom_components/scout_alarm/binary_sensor.py:56 | list membership by Python `==`: a type is supported iff it compares equal to one of the six codes, so only a string equal to a code is supported |
| BinarySensor.IsOnByKind | custom_components/scout_alarm/binary_sensor.py:86-113 | the kind-table reading of `is_on`: AttributeError for a truthy non-dict `reported`, off without a trigger or for an unsupported type, on only for a supported type |
| BinarySensor.DeviceClassByKind | custom_components/scout_alarm/binary_sensor.py:116-134 | the table reading of `device_class`: succeeds iff `type` is present and the kind has a fixed class or `name` is a string; window and opening only for names without "door"; the access sensor takes the name heuristic |
| DeviceRecord.Reported | custom_components/scout_alarm/binary_sensor.py:168 | `device.get('reported')` is the stored value when the record has the key and None otherwise |
| DeviceRecord.ReportedTrigger | custom_components/scout_alarm/binary_sensor.py:167-172 | a missing or falsy `reported` yields None; a truthy `reported` that is not a dict raises AttributeError; otherwise the result is `reported['trigger']` when that key is present |
| BinarySensor.IsOn | custom_components/scout_alarm/binary_sensor.py:86-113 | on implies a truthy trigger and one of the six supported types; with distinct type codes, the `if/elif` chain equals the kind-table reading `IsOnByKind` |
| BinarySensor.IsOnOffWithoutTrigger | custom_components/scout_alarm/binary_sensor.py:88-90 | a missing or falsy `reported`, or a missing or falsy trigger, gives off and never raises |
| BinarySensor.IsOnOffForUnsupportedType | custom_components/scout_alarm/binary_sensor.py:92-113 | a type outside the six gives off whatever the trigger holds; `trigger['state']` is never read |
| BinarySensor.IsOnFaults | custom_components/scout_alarm/binary_sensor.py:86-111 | with distinct codes, `is_on` succeeds iff the record is well formed: `reported` falsy or a dict, and a truthy trigger comes with a `type` and, for a supported type, `state` (and `state['smoke']` for a smoke alarm); a truthy non-dict `reported` raises AttributeError, a missing `type` KeyError('type'), a missing `state` KeyError('state') or TypeError for a non-dict trigger |
| BinarySensor.IsOnDoorPanel | custom_components/scout_alarm/binary_sensor.py:94-95 | a door panel is on iff `trigger.state` equals the open state; raises iff the trigger has no `state` |
| BinarySensor.IsOnAccessSensor | custom_components/scout_alarm/binary_sensor.py:96-97 | an access sensor is on iff `trigger.state` equals the open state |
| BinarySensor.IsOnMotionSensor | custom_components/scout_alarm/binary_sensor.py:98-99 | with distinct codes, a motion sensor is on iff `trigger.state` equals the motion-start state |
| BinarySensor.IsOnWaterSensor | custom_components/scout_alarm/binary_sensor.py:100-101 | with distinct codes, a water sensor is on iff `trigger.state` equals the wet state |
| BinarySensor.IsOnGlassBreak | custom_components/scout_alarm/binary_sensor.py:102-103 | with distinct codes, a glass-break sensor is on iff `trigger.state` differs from the ok state |
| BinarySensor.IsOnSmokeAlarm | custom_components/scout_alarm/binary_sensor.py:104-111 | with distinct codes, a smoke alarm succeeds iff `state` is a dict with `smoke`; it is then on iff `smoke` differs from ok or `co` differs from ok, where a missing or null `co` reads as the "ok" literal |
| BinarySensor.IsOnSmokeWithoutCo | custom_components/scout_alarm/binary_sensor.py:107-111 | with distinct codes, with no `co` key and the ok state spelled "ok", a smoke alarm is on iff `smoke` differs from ok |
| SensorKind.KindOf | custom_components/scout_alarm/binary_sensor.py:40-47 | a type value names a supported kind iff it is one of the six listed codes, and then it is that kind's code |
| SensorKind.KindOfTypeCode | custom_components/scout_alarm/binary_sensor.py:40-47 | with distinct codes, kind to code to kind is the identity |
| SensorKind.OnRule | custom_components/scout_alarm/binary_sensor.py:94-113 | an unsupported kind is off without reading the trigger; a supported kind raises when the trigger has no `state` |
| SensorKind.ClassRule | custom_components/scout_alarm/binary_sensor.py:119-128 | only the access sensor and unsupported types lack a fixed device class |
| SensorKind.NameClass | custom_components/scout_alarm/binary_sensor.py:129-134 | the class is door iff the lowercased name contains "door"; window iff it contains "window" but not "door"; opening otherwise |
| BinarySensor.DeviceClassOf | custom_components/scout_alarm/binary_sensor.py:116-134 | raises iff `type` is missing, or the type has no fixed class and `name` is missing or not a string; window and opening only for names without "door"; with distinct codes it equals the table reading |
| BinarySensor.DeviceClassFixedTable | custom_components/scout_alarm/binary_sensor.py:119-128 | with distinct codes, door panel maps to door, smoke alarm to smoke, motion to motion, water to moisture, glass break to vibration, whatever the name |
| BinarySensor.DeviceClassByName | custom_components/scout_alarm/binary_sensor.py:129-134 | with distinct codes, the access sensor and every unsupported type take the name heuristic |
| BinarySensor.DeviceClassDoorBeforeWindow | custom_components/scout_alarm/binary_sensor.py:129-132 | for every type without a fixed class, the access sensor included, a name containing both "door" and "window" is classed as a door |
| BinarySensor.AccessSensorClassedByName | custom_components/scout_alarm/binary_sensor.py:119-131 | with distinct codes the access sensor has no fixed class, so the name heuristic decides its class |
| BinarySensor.DeviceClassIgnoresCase | custom_components/scout_alarm/binary_sensor.py:129-131 | names that differ only in ASCII case get the same class |
| BinarySensor.Available | custom_components/scout_alarm/binary_sensor.py:82-84 | false iff `reported.timedout` is exactly the boolean True; raises KeyError without `reported` and AttributeError when `reported` is not a dict |
| BinarySensor.AvailableOnlyForTrue | custom_components/scout_alarm/binary_sensor.py:84 | a truthy `timedout` that is not the boolean True leaves the device available |
| BinarySensor.BatteryLow | custom_components/scout_alarm/binary_sensor.py:148 | False for a missing or falsy battery; otherwise `battery.get('low')`, which is None when `low` is absent; raises for a truthy non-dict battery |
| BinarySensor.StateAttributes | custom_components/scout_alarm/binary_sensor.py:140-149 | exactly the four keys; `device_id` and `device_type` echo the record; `battery_low` follows BatteryLow; raises iff `reported`, `id` or `type` is missing, or `reported` is not a dict, or the battery is malformed |
| BinarySensor.OnDeviceChange | custom_components/scout_alarm/binary_sensor.py:174-176 | succeeds iff both the event and the record carry an `id`; it then asks for a refresh iff the event id compares Python-`==` to the record id |
| BinarySensor.OwnEventRefreshes | custom_components/scout_alarm/binary_sensor.py:175-176 | an event carrying the record's own id always asks for a refresh |
| BinarySensor.EqualIdsRefresh | custom_components/scout_alarm/binary_sensor.py:175-176 | an event whose id compares `==` to the record id asks for a refresh, even when the two differ as JSON (True and 1) |
| BinarySensor.ForeignEventIgnored | custom_components/scout_alarm/binary_sensor.py:175 | an event whose id differs from the record's asks for nothing |
| BinarySensor.RefreshTargetsOneId | custom_components/scout_alarm/binary_sensor.py:174-176 | one event refreshes two entities only when their ids compare equal |
| Json.PyEqStr | custom_components/scout_alarm/binary_sensor.py:94 | comparing a value with a string constant is plain equality |
| Json.PyEqBoolInt | custom_components/scout_alarm/binary_sensor.py:175 | Python's `==` equates a boolean with exactly the integer 0 or 1 it stands for, although the two differ as JSON |
| Json.PyEqReflexive | custom_components/scout_alarm/binary_sensor.py:175 | the id comparison is reflexive on every JSON value |
| Json.PyEqSymmetric | custom_components/scout_alarm/binary_sensor.py:175 | the id comparison is symmetric |
| Json.PyEqTransitive | custom_components/scout_alarm/binary_sensor.py:175 | the id comparison is transitive |
| Text.Lower | custom_components/scout_alarm/binary_sensor.py:129 | lowercasing keeps the length and folds each ASCII upper-case letter |
| Text.LowerIdempotent | custom_components/scout_alarm/binary_sensor.py:129 | lowercasing twice is lowercasing once |
| Text.LowerEqualIff | custom_components/scout_alarm/binary_sensor.py:129-131 | two names lowercase to the same string iff they differ only in ASCII case |
| Text.Contains | custom_components/scout_alarm/binary_sensor.py:129-131 | the substring test holds iff the needle occurs at some index of the haystack |
| Setup.KeepSupported | custom_components/scout_alarm/binary_sensor.py:57 | the kept records are listed records with a supported type, and there are no more of them than listed |
| Setup.KeepSupportedAppend | custom_components/scout_alarm/binary_sensor.py:57 | filtering distributes over concatenation, so the kept records stay in list order |
| Setup.KeepSupportedMembership | custom_components/scout_alarm/binary_sensor.py:40-57 | a record is kept iff it is listed and its type is one of the six supported codes |
| Setup.KeepSupportedIdempotent | custom_components/scout_alarm/binary_sensor.py:57 | filtering the kept records again changes nothing |
| Setup.SetupEntities | custom_components/scout_alarm/binary_sensor.py:56-57 | fails with KeyError('type') iff some record has no `type`; otherwise returns exactly the supported records in order |
| Scenarios.OpenDoorPanel | custom_components/scout_alarm/binary_sensor.py:82-134 | a door panel reporting the open state is on, available, and classed as a door |
| Scenarios.SmokeAlarmWithCoAlarm | custom_components/scout_alarm/binary_sensor.py:104-111 | a smoke alarm with smoke ok and a non-ok CO reading is on; with both ok it is off |
| Scenarios.ChangeEventRouting | custom_components/scout_alarm/binary_sensor.py:174-176 | an event for "d1" refreshes the "d1" entity and not the "d2" entity |

## Left out

- Network I/O is not modelled. This covers `get_devices` in `async_setup_entry` and `get_device` in `async_update`, with their `async`/`await`. The devices list is a parameter of `SetupEntities`. A refresh only replaces the record wholesale, and every derived property here is a pure function of the record.
- Registering the entity with the change listener and `schedule_update_ha_state` are host plumbing. Only the id-match decision is modelled, as `OnDeviceChange` returning whether a forced refresh is requested.
- Host entity boilerplate is not modelled: `unique_id`, `name`, `should_poll` and `device_info`. These are field projections or constants that the host interface imposes.
- `LOGGER` calls are not modelled.
- Text.Lower: folds only the ASCII letters A-Z, not full Unicode `str.lower()`.
- The string values of the vendor constants are not modelled, because `const.py` is not part of this model. They are parameters, and the host's device-class strings are an enumeration.
- Floating-point JSON numbers are not modelled; `JValue` has integers only.

=== FILE: binary_sensor.dfy ===
/**
 * The sensor state mapper: the derived properties a door/window/motion/
 * smoke/water/glass-break entity computes from its cached device record.
 * Each is a pure function of the record (and of the vendor constants); a
 * Python exception becomes `Failure(fault)`. The `if/elif` chains are kept
 * in the mapper's own order and proved equal to the tables of SensorKind
 * whenever the type codes are distinct.
 */
module BinarySensor {
  import opened Wrappers
  import opened Json
  import opened Text
  import opened ScoutConst
  import opened DeviceRecord
  import opened SensorKind

  /** `self._device[key]`. */
  function Field(d: Record, key: string): (r: Result<JValue, Fault>)
    ensures r.Success? <==> key in d
    ensures r.Success? ==> r.value == d[key]
    ensures r.Failure? ==> r.error == KeyError(key)
  {
    Subscript(JObj(d), key)
  }

  // ---------------------------------------------------------------- is_on

  /** The reference reading of `is_on`: no trigger, off; else the kind's rule. */
  function IsOnByKind(c: Constants, d: Record): (r: Result<bool, Fault>)
    ensures ReportedTrigger(d).Failure? ==> r == Failure(AttributeError)
    ensures ReportedTrigger(d).Success? && !Truthy(ReportedTrigger(d).value) ==> r == Success(false)
    ensures ReportedTrigger(d).Success? && "type" in d && KindOf(c, d["type"]) == Unsupported ==> r == Success(false)
    ensures r == Success(true) ==> "type" in d && KindOf(c, d["type"]) != Unsupported
  {
    var trigger :- ReportedTrigger(d);
    if !Truthy(trigger) then Success(false)
    else
      var deviceType :- Field(d, "type");
      OnRule(c, KindOf(c, deviceType), trigger)
  }

  /** `is_on`, in the mapper's branch order. */
  function IsOn(c: Constants, d: Record): (r: Result<bool, Fault>)
    ensures r == Success(true) ==> "type" in d && KindOf(c, d["type"]) != Unsupported
    ensures r == Success(true) ==> ReportedTrigger(d).Success? && Truthy(ReportedTrigger(d).value)
    ensures TypesDistinct(c) ==> r == IsOnByKind(c, d)
  {
    var trigger :- ReportedTrigger(d);
    if !Truthy(trigger) then Success(false)
    else
      var deviceType :- Field(d, "type");
      if deviceType == JStr(c.typeDoorPanel) then
        var state :- Subscript(trigger, "state");
        Success(state == JStr(c.stateOpen))
      else if deviceType == JStr(c.typeAccessSensor) then
        var state :- Subscript(trigger, "state");
        Success(state == JStr(c.stateOpen))
      else if deviceType == JStr(c.typeMotionSensor) then
        var state :- Subscript(trigger, "state");
        Success(state == JStr(c.stateMotionStart))
      else if deviceType == JStr(c.typeWaterSensor) then
        var state :- Subscript(trigger, "state");
        Success(state == JStr(c.stateWet))
      else if deviceType == JStr(c.typeGlassBreak) then
        var state :- Subscript(trigger, "state");
        Success(state != JStr(c.stateOk))
      else if deviceType == JStr(c.typeSmokeAlarm) then
        var state :- Subscript(trigger, "state");
        var smoke :- Subscript(state, "smoke");
        // `state['smoke']` succeeded, so `state` is a dict and `.get('co')` cannot raise
        var co := Lookup(state.fields, "co").GetOr(JNull);
        Success(smoke != JStr(c.stateOk) || CoOrOk(co) != JStr(c.stateOk))
      else
        Success(false)
  }

  /** A missing or falsy `reported`, or a missing or falsy trigger, reads as off. */
  lemma IsOnOffWithoutTrigger(c: Constants, d: Record)
    requires ReportedTrigger(d).Success? && !Truthy(ReportedTrigger(d).value)
    ensures IsOn(c, d) == Success(false)
  {
  }

  /** A type outside the six never reads as on, whatever the trigger holds. */
  lemma IsOnOffForUnsupportedType(c: Constants, d: Record)
    requires "type" in d && !IsSupported(c, d["type"])
    requires ReportedTrigger(d).Success?
    ensures IsOn(c, d) == Success(false)
  {
  }

  /** The trigger holds what the kind's rule reads: `state`, and `state['smoke']` for a smoke alarm. */
  predicate TriggerWellFormed(k: Kind, trigger: JValue) {
    k == Unsupported ||
    (HasKey(trigger, "state") && (k == SmokeAlarm ==> HasKey(trigger.fields["state"], "smoke")))
  }

  /**
   * The records `is_on` reads without raising: `reported` is falsy or a dict,
   * and a truthy trigger comes with a `type` and the fields its rule reads.
   */
  predicate IsOnWellFormed(c: Constants, d: Record) {
    var reported := Reported(d);
    !Truthy(reported) ||
    (reported.JObj? &&
     var trigger := Lookup(reported.fields, "trigger").GetOr(JNull);
     !Truthy(trigger) || ("type" in d && TriggerWellFormed(KindOf(c, d["type"]), trigger)))
  }

  /** `is_on` raises exactly on the malformed records, and names the missing piece. */
  lemma IsOnFaults(c: Constants, d: Record)
    requires TypesDistinct(c)
    ensures IsOn(c, d).Success? <==> IsOnWellFormed(c, d)
    ensures Truthy(Reported(d)) && !Reported(d).JObj? ==> IsOn(c, d) == Failure(AttributeError)
    ensures ReportedTrigger(d).Success? && Truthy(ReportedTrigger(d).value) && "type" !in d ==>
      IsOn(c, d) == Failure(KeyError("type"))
    ensures (&& ReportedTrigger(d).Success? && Truthy(ReportedTrigger(d).value) && "type" in d
             && KindOf(c, d["type"]) != Unsupported && !HasKey(ReportedTrigger(d).value, "state")) ==>
      IsOn(c, d) == Failure(if ReportedTrigger(d).value.JObj? then KeyError("state") else TypeError)
  {
  }

  /** A door panel is on iff its trigger state is the open state. */
  lemma IsOnDoorPanel(c: Constants, d: Record, trigger: JValue)
    requires ReportedTrigger(d) == Success(trigger) && Truthy(trigger)
    requires "type" in d && d["type"] == JStr(c.typeDoorPanel)
    ensures HasKey(trigger, "state") ==> IsOn(c, d) == Success(trigger.fields["state"] == JStr(c.stateOpen))
    ensures !HasKey(trigger, "state") ==> IsOn(c, d).Failure?
  {
  }

  /** An access sensor is on iff its trigger state is the open state. */
  lemma IsOnAccessSensor(c: Constants, d: Record, trigger: JValue)
    requires ReportedTrigger(d) == Success(trigger) && Truthy(trigger)
    requires "type" in d && d["type"] == JStr(c.typeAccessSensor)
    ensures HasKey(trigger, "state") ==> IsOn(c, d) == Success(trigger.fields["state"] == JStr(c.stateOpen))
    ensures !HasKey(trigger, "state") ==> IsOn(c, d).Failure?
  {
  }

  /** A motion sensor is on iff its trigger state is the motion-start state. */
  lemma IsOnMotionSensor(c: Constants, d: Record, trigger: JValue)
    requires TypesDistinct(c)
    requires ReportedTrigger(d) == Success(trigger) && Truthy(trigger)
    requires "type" in d && d["type"] == JStr(c.typeMotionSensor)
    ensures HasKey(trigger, "state") ==> IsOn(c, d) == Success(trigger.fields["state"] == JStr(c.stateMotionStart))
    ensures !HasKey(trigger, "state") ==> IsOn(c, d).Failure?
  {
  }

  /** A water sensor is on iff its trigger state is the wet state. */
  lemma IsOnWaterSensor(c: Constants, d: Record, trigger: JValue)
    requires TypesDistinct(c)
    requires ReportedTrigger(d) == Success(trigger) && Truthy(trigger)
    requires "type" in d && d["type"] == JStr(c.typeWaterSensor)
    ensures HasKey(trigger, "state") ==> IsOn(c, d) == Success(trigger.fields["state"] == JStr(c.stateWet))
    ensures !HasKey(trigger, "state") ==> IsOn(c, d).Failure?
  {
  }

  /** A glass-break sensor is on iff its trigger state is anything but the ok state. */
  lemma IsOnGlassBreak(c: Constants, d: Record, trigger: JValue)
    requires TypesDistinct(c)
    requires ReportedTrigger(d) == Success(trigger) && Truthy(trigger)
    requires "type" in d && d["type"] == JStr(c.typeGlassBreak)
    ensures HasKey(trigger, "state") ==> IsOn(c, d) == Success(trigger.fields["state"] != JStr(c.stateOk))
    ensures !HasKey(trigger, "state") ==> IsOn(c, d).Failure?
  {
  }

  /**
   * A smoke alarm is on iff its smoke reading or its carbon-monoxide reading
   * (the "ok" literal when missing or null) differs from the ok state; a
   * state that is not a dict with a `smoke` key raises.
   */
  lemma IsOnSmokeAlarm(c: Constants, d: Record, trigger: JValue)
    requires TypesDistinct(c)
    requires ReportedTrigger(d) == Success(trigger) && Truthy(trigger)
    requires "type" in d && d["type"] == JStr(c.typeSmokeAlarm)
    ensures IsOn(c, d).Success? <==> HasKey(trigger, "state") && HasKey(trigger.fields["state"], "smoke")
    ensures IsOn(c, d).Success? ==>
      var state := trigger.fields["state"].fields;
      var co := if "co" in state && state["co"] != JNull then state["co"] else JStr(OkLiteral);
      IsOn(c, d).value <==> state["smoke"] != JStr(c.stateOk) || co != JStr(c.stateOk)
  {
  }

  /** With no `co` reading and the ok state spelled "ok", only the smoke reading counts. */
  lemma IsOnSmokeWithoutCo(c: Constants, d: Record, trigger: JValue)
    requires TypesDistinct(c) && c.stateOk == OkLiteral
    requires ReportedTrigger(d) == Success(trigger) && Truthy(trigger)
    requires "type" in d && d["type"] == JStr(c.typeSmokeAlarm)
    requires HasKey(trigger, "state") && HasKey(trigger.fields["state"], "smoke")
    requires "co" !in trigger.fields["state"].fields
    ensures IsOn(c, d) == Success(trigger.fields["state"].fields["smoke"] != JStr(c.stateOk))
  {
    IsOnSmokeAlarm(c, d, trigger);
  }

  // --------------------------------------------------------- device_class

  /** The reference reading of `device_class`: the fixed table, else the name heuristic. */
  function DeviceClassByKind(c: Constants, d: Record): (r: Result<DeviceClass, Fault>)
    ensures r.Success? <==> "type" in d && (ClassRule(KindOf(c, d["type"])).Some? || ("name" in d && d["name"].JStr?))
    ensures r.Success? && (r.value == Window || r.value == Opening) ==>
      "name" in d && d["name"].JStr? && !Contains(Lower(d["name"].s), "door")
    ensures "type" in d && KindOf(c, d["type"]) == AccessSensor && "name" in d && d["name"].JStr? ==>
      r == Success(NameClass(d["name"].s))
  {
    var deviceType :- Field(d, "type");
    match ClassRule(KindOf(c, deviceType))
    case Some(cls) => Success(cls)
    case None =>
      var name :- Field(d, "name");
      if name.JStr? then Success(NameClass(name.s)) else Failure(AttributeError)
  }

  /** The type is one of the five with a fixed class; the access sensor is not among them. */
  predicate ClassedByType(c: Constants, t: JValue) {
    t.JStr? && t.s in [c.typeDoorPanel, c.typeSmokeAlarm, c.typeMotionSensor, c.typeWaterSensor, c.typeGlassBreak]
  }

  /** `device_class`, in the mapper's branch order. */
  function DeviceClassOf(c: Constants, d: Record): (r: Result<DeviceClass, Fault>)
    ensures r.Success? && (r.value == Window || r.value == Opening) ==>
      "name" in d && d["name"].JStr? && !Contains(Lower(d["name"].s), "door")
    ensures r.Failure? <==> "type" !in d || (!ClassedByType(c, d["type"]) && !("name" in d && d["name"].JStr?))
    ensures TypesDistinct(c) ==> r == DeviceClassByKind(c, d)
  {
    var deviceType :- Field(d, "type");
    if deviceType == JStr(c.typeDoorPanel) then Success(Door)
    else if deviceType == JStr(c.typeSmokeAlarm) then Success(Smoke)
    else if deviceType == JStr(c.typeMotionSensor) then Success(Motion)
    else if deviceType == JStr(c.typeWaterSensor) then Success(Moisture)
    else if deviceType == JStr(c.typeGlassBreak) then Success(Vibration)
    else
      var name :- Field(d, "name");
      if !name.JStr? then Failure(AttributeError)
      else if Contains(Lower(name.s), "door") then Success(Door)
      else if Contains(Lower(name.s), "window") then Success(Window)
      else Success(Opening)
  }

  /** The five typed kinds get their fixed class, whatever the name. */
  lemma DeviceClassFixedTable(c: Constants, d: Record, k: Kind)
    requires TypesDistinct(c)
    requires k != Unsupported && k != AccessSensor
    requires "type" in d && d["type"] == JStr(TypeCode(c, k))
    ensures DeviceClassOf(c, d) == Success(ClassRule(k).value)
    ensures k == DoorPanel ==> DeviceClassOf(c, d) == Success(Door)
    ensures k == SmokeAlarm ==> DeviceClassOf(c, d) == Success(Smoke)
    ensures k == MotionSensor ==> DeviceClassOf(c, d) == Success(Motion)
    ensures k == WaterSensor ==> DeviceClassOf(c, d) == Success(Moisture)
    ensures k == GlassBreak ==> DeviceClassOf(c, d) == Success(Vibration)
  {
    KindOfTypeCode(c, k);
  }

  /** Every other type, the access sensor included, is classed by its name. */
  lemma DeviceClassByName(c: Constants, d: Record)
    requires TypesDistinct(c)
    requires "type" in d && "name" in d && d["name"].JStr?
    requires KindOf(c, d["type"]) == AccessSensor || KindOf(c, d["type"]) == Unsupported
    ensures DeviceClassOf(c, d) == Success(NameClass(d["name"].s))
    ensures Contains(Lower(d["name"].s), "door") ==> DeviceClassOf(c, d) == Success(Door)
    ensures !Contains(Lower(d["name"].s), "door") && Contains(Lower(d["name"].s), "window") ==>
      DeviceClassOf(c, d) == Success(Window)
    ensures !Contains(Lower(d["name"].s), "door") && !Contains(Lower(d["name"].s), "window") ==>
      DeviceClassOf(c, d) == Success(Opening)
  {
  }

  /** "door" is tested before "window": a name-classed device whose name holds both is a door. */
  lemma DeviceClassDoorBeforeWindow(c: Constants, d: Record, i: int, j: int)
    requires "type" in d && !ClassedByType(c, d["type"])
    requires "name" in d && d["name"].JStr?
    requires OccursAt(Lower(d["name"].s), "door", i) && OccursAt(Lower(d["name"].s), "window", j)
    ensures DeviceClassOf(c, d) == Success(Door)
  {
  }

  /** With distinct codes the access sensor has no fixed class, so its name decides. */
  lemma AccessSensorClassedByName(c: Constants)
    requires TypesDistinct(c)
    ensures !ClassedByType(c, JStr(c.typeAccessSensor))
  {
  }

  /** Names that differ only in ASCII case get the same class. */
  lemma DeviceClassIgnoresCase(c: Constants, d: Record, other: string)
    requires "name" in d && d["name"].JStr? && SameIgnoringCase(d["name"].s, other)
    ensures DeviceClassOf(c, d) == DeviceClassOf(c, d["name" := JStr(other)])
  {
    LowerEqualIff(d["name"].s, other);
  }

  // ------------------------------------------------------------ available

  /** `available`: `reported.get('timedout') is not True`. */
  function Available(d: Record): (r: Result<bool, Fault>)
    ensures r.Success? <==> "reported" in d && d["reported"].JObj?
    ensures r.Failure? ==> r.error == (if "reported" in d then AttributeError else KeyError("reported"))
    ensures r == Success(false) <==>
      "reported" in d && d["reported"].JObj? && Lookup(d["reported"].fields, "timedout") == Some(JBool(true))
  {
    var reported :- Field(d, "reported");
    var timedout :- DictGet(reported, "timedout");
    Success(timedout != JBool(true))
  }

  /** Only the boolean `True` marks a device unavailable: truthy non-booleans do not. */
  lemma AvailableOnlyForTrue(d: Record, v: JValue)
    requires "reported" in d && d["reported"].JObj?
    requires "timedout" in d["reported"].fields && d["reported"].fields["timedout"] == v
    requires Truthy(v) && v != JBool(true)
    ensures Available(d) == Success(true)
  {
  }

  // ------------------------------------------------- device_state_attributes

  /** The `battery_low` attribute, given the value of `reported.get('battery')`. */
  function BatteryLow(battery: JValue): (r: Result<JValue, Fault>)
    ensures !Truthy(battery) ==> r == Success(JBool(false))
    ensures Truthy(battery) && battery.JObj? ==> r == Success(Lookup(battery.fields, "low").GetOr(JNull))
    ensures r.Failure? <==> Truthy(battery) && !battery.JObj?
  {
    if Truthy(battery) then DictGet(battery, "low") else Success(JBool(false))
  }

  /** `device_state_attributes`, evaluated in the dict literal's order. */
  function StateAttributes(c: Constants, d: Record): (r: Result<map<string, JValue>, Fault>)
    ensures r.Success? <==>
      && "reported" in d && d["reported"].JObj?
      && "id" in d && "type" in d
      && BatteryLow(Lookup(d["reported"].fields, "battery").GetOr(JNull)).Success?
    ensures r.Success? ==>
      && r.value.Keys == {AttrAttribution, "device_id", "device_type", "battery_low"}
      && r.value[AttrAttribution] == JStr(c.attribution)
      && r.value["device_id"] == d["id"]
      && r.value["device_type"] == d["type"]
    ensures r.Success? && !Truthy(Lookup(d["reported"].fields, "battery").GetOr(JNull)) ==>
      r.value["battery_low"] == JBool(false)
    ensures r.Success? && Truthy(Lookup(d["reported"].fields, "battery").GetOr(JNull)) ==>
      var battery := d["reported"].fields["battery"];
      battery.JObj? && r.value["battery_low"] == Lookup(battery.fields, "low").GetOr(JNull)
  {
    var reported :- Field(d, "reported");
    var battery :- DictGet(reported, "battery");
    var id :- Field(d, "id");
    var deviceType :- Field(d, "type");
    var low :- BatteryLow(battery);
    Success(map[AttrAttribution := JStr(c.attribution), "device_id" := id,
                "device_type" := deviceType, "battery_low" := low])
  }

  // ------------------------------------------------- change notification

  /**
   * `__on_device_change(data)`: whether the entity asks the host for a
   * forced refresh. `data['id']` is read before the record's own `id`.
   */
  function OnDeviceChange(d: Record, event: JValue): (r: Result<bool, Fault>)
    ensures r.Success? <==> HasKey(event, "id") && "id" in d
    ensures r.Failure? ==> r.error == (if HasKey(event, "id") || event.JObj? then KeyError("id") else TypeError)
    ensures r.Success? ==> (r.value <==> PyEq(event.fields["id"], d["id"]))
    ensures r == Success(true) ==> PyEq(d["id"], event.fields["id"])
  {
    var eventId :- Subscript(event, "id");
    var ownId :- Field(d, "id");
    if PyEq(eventId, ownId) then
      PyEqSymmetric(eventId, ownId);
      Success(true)
    else
      Success(false)
  }

  /** An event carrying the record's own id always asks for a refresh. */
  lemma OwnEventRefreshes(d: Record, rest: map<string, JValue>)
    requires "id" in d
    ensures OnDeviceChange(d, JObj(rest["id" := d["id"]])) == Success(true)
  {
    PyEqReflexive(d["id"]);
  }

  /** One event refreshes two entities only when their ids compare equal. */
  lemma RefreshTargetsOneId(d1: Record, d2: Record, event: JValue)
    requires OnDeviceChange(d1, event) == Success(true)
    requires OnDeviceChange(d2, event) == Success(true)
    ensures PyEq(d1["id"], d2["id"])
  {
    PyEqSymmetric(d2["id"], event.fields["id"]);
    PyEqTransitive(d1["id"], event.fields["id"], d2["id"]);
  }

  /** An event whose id compares `==` to the record's asks for a refresh, even when the two differ as JSON. */
  lemma EqualIdsRefresh(d: Record, event: JValue)
    requires "id" in d && HasKey(event, "id") && PyEq(event.fields["id"], d["id"])
    ensures OnDeviceChange(d, event) == Success(true)
  {
  }

  /** An event whose id differs from the record's asks for nothing. */
  lemma ForeignEventIgnored(d: Record, event: JValue)
    requires "id" in d && HasKey(event, "id") && !PyEq(event.fields["id"], d["id"])
    ensures OnDeviceChange(d, event) == Success(false)
  {
  }
}

=== FILE: device_record.dfy ===
/**
 * The cached device record a sensor entity holds: the top-level dict the
 * vendor API returns (`id`, `name`, `type`, `reported`, ...), and the one
 * shared lookup the mapper makes into it, `reported_trigger`.
 */
module DeviceRecord {
  import opened Wrappers
  import opened Json

  /** A device record is always a dict; its values are arbitrary JSON. */
  type Record = map<string, JValue>

  /** `device.get('reported')`, with `None` as JNull. */
  function Reported(d: Record): (r: JValue)
    ensures "reported" !in d ==> r == JNull
    ensures "reported" in d ==> r == d["reported"]
  {
    Lookup(d, "reported").GetOr(JNull)
  }

  /**
   * `reported_trigger()`: None (JNull) when `reported` is absent or falsy,
   * otherwise `reported.get('trigger')`, which raises AttributeError when a
   * truthy `reported` is not a dict.
   */
  function ReportedTrigger(d: Record): (r: Result<JValue, Fault>)
    ensures !Truthy(Reported(d)) ==> r == Success(JNull)
    ensures r.Failure? <==> Truthy(Reported(d)) && !Reported(d).JObj?
    ensures r.Failure? ==> r.error == AttributeError
    ensures r.Success? && r.value != JNull ==> HasKey(Reported(d), "trigger") && r.value == Reported(d).fields["trigger"]
    ensures Reported(d).JObj? && HasKey(Reported(d), "trigger") ==> r == Success(Reported(d).fields["trigger"])
  {
    var reported := Reported(d);
    if !Truthy(reported) then Success(JNull) else DictGet(reported, "trigger")
  }
}

=== FILE: json.dfy ===
/**
 * The JSON-like values a device record is built from, and the few Python
 * operations the sensor mapper applies to them: truthiness (`if not x`),
 * subscripting (`x[key]`), `dict.get` and `==`.
 */
module Json {
  import opened Wrappers

  /** A decoded JSON value as Python holds it (floats are not modelled). */
  datatype JValue =
    | JNull
    | JBool(b: bool)
    | JInt(i: int)
    | JStr(s: string)
    | JArr(items: seq<JValue>)
    | JObj(fields: map<string, JValue>)

  /** The exception a Python expression over a JValue raises. */
  datatype Fault =
    | KeyError(key: string)   // `d[key]` on a dict without `key`
    | TypeError               // `x[key]` on something that is not a dict
    | AttributeError          // `x.get(..)` or `x.lower()` on the wrong kind of value

  /** Python truthiness: `None`, `False`, `0`, `""`, `[]` and `{}` are falsy. */
  predicate Truthy(v: JValue): (r: bool)
    ensures !r <==> v in [JNull, JBool(false), JInt(0), JStr(""), JArr([]), JObj(map[])]
  {
    match v
    case JNull => false
    case JBool(b) => b
    case JInt(i) => i != 0
    case JStr(s) => s != ""
    case JArr(xs) => xs != []
    case JObj(m) => m != map[]
  }

  /** `v` is a dict holding `key`, so `v[key]` does not raise. */
  predicate HasKey(v: JValue, key: string) {
    v.JObj? && key in v.fields
  }

  /** Key lookup in a dict that is known to be a dict. */
  function Lookup(m: map<string, JValue>, key: string): (r: Option<JValue>)
    ensures r.Some? <==> key in m
    ensures r.Some? ==> r.value == m[key]
  {
    if key in m then Some(m[key]) else None
  }

  /** Python `v[key]` with a string key. */
  function Subscript(v: JValue, key: string): (r: Result<JValue, Fault>)
    ensures r.Success? <==> HasKey(v, key)
    ensures r.Success? ==> r.value == v.fields[key]
    ensures r.Failure? && v.JObj? ==> r.error == KeyError(key)
    ensures r.Failure? && !v.JObj? ==> r.error == TypeError
  {
    match v
    case JObj(m) => if key in m then Success(m[key]) else Failure(KeyError(key))
    case _ => Failure(TypeError)
  }

  /** Python `v.get(key)`: `None` for a missing key, and only dicts have `get`. */
  function DictGet(v: JValue, key: string): (r: Result<JValue, Fault>)
    ensures r.Success? <==> v.JObj?
    ensures r.Failure? ==> r.error == AttributeError
    ensures r.Success? ==> r.value == Lookup(v.fields, key).GetOr(JNull)
  {
    match v
    case JObj(m) => Success(if key in m then m[key] else JNull)
    case _ => Failure(AttributeError)
  }

  /** The numeric value Python gives `bool` and `int` (`True == 1`); 0 for the rest. */
  function NumVal(v: JValue): int {
    match v
    case JBool(b) => if b then 1 else 0
    case JInt(i) => i
    case _ => 0
  }

  /**
   * Python `==` on decoded JSON: booleans compare equal to the integers 0
   * and 1, lists element-wise, dicts by key set and value.
   */
  predicate PyEq(a: JValue, b: JValue): (r: bool)
    ensures a == b ==> r
    ensures a.JStr? || b.JStr? ==> (r <==> a == b)
    ensures a.JNull? || b.JNull? ==> (r <==> a == b)
  {
    match (a, b)
    case (JNull, JNull) => true
    case (JStr(s), JStr(t)) => s == t
    case (JArr(xs), JArr(ys)) =>
      |xs| == |ys| && forall i :: 0 <= i < |xs| ==> PyEq(xs[i], ys[i])
    case (JObj(m), JObj(n)) =>
      m.Keys == n.Keys && forall k :: k in m ==> PyEq(m[k], n[k])
    case _ =>
      (a.JBool? || a.JInt?) && (b.JBool? || b.JInt?) && NumVal(a) == NumVal(b)
  }

  /** Comparing with a string is plain equality: no coercion applies to `str`. */
  lemma PyEqStr(v: JValue, s: string)
    ensures PyEq(v, JStr(s)) <==> v == JStr(s)
    ensures PyEq(JStr(s), v) <==> v == JStr(s)
  {
  }

  /** A boolean equals exactly the integer 0 or 1 it stands for, although the two differ as JSON. */
  lemma PyEqBoolInt(b: bool, i: int)
    ensures PyEq(JBool(b), JInt(i)) <==> i == (if b then 1 else 0)
    ensures PyEq(JInt(i), JBool(b)) <==> i == (if b then 1 else 0)
    ensures JBool(b) != JInt(i)
  {
  }

  lemma {:induction false} PyEqReflexive(a: JValue)
    ensures PyEq(a, a)
    decreases a
  {
    match a
    case JArr(xs) =>
      forall i | 0 <= i < |xs| ensures PyEq(xs[i], xs[i]) {
        PyEqReflexive(xs[i]);
      }
    case JObj(m) =>
      forall k | k in m ensures PyEq(m[k], m[k]) {
        PyEqReflexive(m[k]);
      }
    case _ =>
  }

  lemma {:induction false} PyEqSymmetric(a: JValue, b: JValue)
    requires PyEq(a, b)
    ensures PyEq(b, a)
    decreases a
  {
    match (a, b)
    case (JArr(xs), JArr(ys)) =>
      forall i | 0 <= i < |ys| ensures PyEq(ys[i], xs[i]) {
        PyEqSymmetric(xs[i], ys[i]);
      }
    case (JObj(m), JObj(n)) =>
      forall k | k in n ensures PyEq(n[k], m[k]) {
        PyEqSymmetric(m[k], n[k]);
      }
    case _ =>
  }

  lemma {:induction false} PyEqTransitive(a: JValue, b: JValue, c: JValue)
    requires PyEq(a, b) && PyEq(b, c)
    ensures PyEq(a, c)
    decreases a
  {
    match (a, b, c)
    case (JArr(xs), JArr(ys), JArr(zs)) =>
      forall i | 0 <= i < |xs| ensures PyEq(xs[i], zs[i]) {
        PyEqTransitive(xs[i], ys[i], zs[i]);
      }
    case (JObj(m), JObj(n), JObj(o)) =>
      forall k | k in m ensures PyEq(m[k], o[k]) {
        PyEqTransitive(m[k], n[k], o[k]);
      }
    case _ =>
  }
}

=== FILE: scenarios.dfy ===
/**
 * Concrete records and what the mapper computes for them, for any choice of vendor
 * constants with distinct type codes.
 */
module Scenarios {
  import opened Wrappers
  import opened Json
  import opened ScoutConst
  import opened DeviceRecord
  import opened SensorKind
  import opened BinarySensor

  function DoorRecord(c: Constants): Record {
    map["id" := JStr("d1"), "name" := JStr("Front"), "type" := JStr(c.typeDoorPanel),
        "reported" := JObj(map["trigger" := JObj(map["state" := JStr(c.stateOpen)])])]
  }

  function SmokeRecord(c: Constants, co: string): Record {
    map["id" := JStr("d2"), "name" := JStr("Hall"), "type" := JStr(c.typeSmokeAlarm),
        "reported" := JObj(map["trigger" := JObj(map["state" :=
          JObj(map["smoke" := JStr(c.stateOk), "co" := JStr(co)])])])]
  }

  /** An open door panel is on and is classed as a door. */
  lemma OpenDoorPanel(c: Constants)
    ensures IsOn(c, DoorRecord(c)) == Success(true)
    ensures DeviceClassOf(c, DoorRecord(c)) == Success(Door)
    ensures Available(DoorRecord(c)) == Success(true)
  {
    var trigger := JObj(map["state" := JStr(c.stateOpen)]);
    assert "state" in trigger.fields;
    IsOnDoorPanel(c, DoorRecord(c), trigger);
  }

  /** A smoke alarm whose smoke reading is ok but whose CO reading is not is on. */
  lemma SmokeAlarmWithCoAlarm(c: Constants, co: string)
    requires TypesDistinct(c) && co != c.stateOk
    ensures IsOn(c, SmokeRecord(c, co)) == Success(true)
    ensures IsOn(c, SmokeRecord(c, c.stateOk)) == Success(false)
  {
    var alarm := JObj(map["state" := JObj(map["smoke" := JStr(c.stateOk), "co" := JStr(co)])]);
    var quiet := JObj(map["state" := JObj(map["smoke" := JStr(c.stateOk), "co" := JStr(c.stateOk)])]);
    assert "state" in alarm.fields && "smoke" in alarm.fields["state"].fields;
    assert "state" in quiet.fields && "smoke" in quiet.fields["state"].fields;
    IsOnSmokeAlarm(c, SmokeRecord(c, co), alarm);
    IsOnSmokeAlarm(c, SmokeRecord(c, c.stateOk), quiet);
  }

  /** A change event for "d1" refreshes the "d1" entity and not the "d2" entity. */
  lemma ChangeEventRouting(c: Constants, co: string)
    ensures OnDeviceChange(DoorRecord(c), JObj(map["id" := JStr("d1")])) == Success(true)
    ensures OnDeviceChange(SmokeRecord(c, co), JObj(map["id" := JStr("d1")])) == Success(false)
  {
  }
}

=== FILE: scout_const.dfy ===
/**
 * The vendor constants the sensor mapper compares against. Their string
 * values live in the integration's `const.py`, which is not part of this
 * model, so they are parameters: every operation takes a `Constants` value
 * and every property holds for all of them (under `TypesDistinct` where the
 * order of an `if/elif` chain would otherwise matter).
 */
module ScoutConst {
  import opened Json

  datatype Constants = Constants(
    stateOpen: string,          // SCOUT_DEVICE_STATE_OPEN
    stateWet: string,           // SCOUT_DEVICE_STATE_WET
    stateMotionStart: string,   // SCOUT_DEVICE_STATE_MOTION_START
    stateOk: string,            // SCOUT_DEVICE_STATE_OK
    typeDoorPanel: string,      // SCOUT_DEVICE_TYPE_DOOR_PANEL
    typeAccessSensor: string,   // SCOUT_DEVICE_TYPE_ACCESS_SENSOR
    typeMotionSensor: string,   // SCOUT_DEVICE_TYPE_MOTION_SENSOR
    typeSmokeAlarm: string,     // SCOUT_DEVICE_TYPE_SMOKE_ALARM
    typeWaterSensor: string,    // SCOUT_DEVICE_TYPE_WATER_SENSOR
    typeGlassBreak: string,     // SCOUT_DEVICE_TYPE_GLASS_BREAK
    attribution: string         // ATTRIBUTION
  )

  /**
   * The literal a smoke alarm's missing carbon-monoxide reading defaults to.
   * It is written out in the mapper rather than taken from `stateOk`, so the
   * two are kept apart here; a property that needs them equal says so.
   */
  const OkLiteral: string := "ok"

  /** The host platform's attribute key for the attribution text. */
  const AttrAttribution: string := "attribution"

  /** SUPPORTED_SCOUT_DEVICE_TYPES, in declaration order. */
  function SupportedTypes(c: Constants): (r: seq<string>)
    ensures |r| == 6
    ensures TypesDistinct(c) <==> forall i, j :: 0 <= i < j < |r| ==> r[i] != r[j]
  {
    var r := [c.typeDoorPanel, c.typeAccessSensor, c.typeMotionSensor,
              c.typeSmokeAlarm, c.typeWaterSensor, c.typeGlassBreak];
    assert !TypesDistinct(c) ==>
      r[0] == r[1] || r[0] == r[2] || r[0] == r[3] || r[0] == r[4] || r[0] == r[5] ||
      r[1] == r[2] || r[1] == r[3] || r[1] == r[4] || r[1] == r[5] ||
      r[2] == r[3] || r[2] == r[4] || r[2] == r[5] ||
      r[3] == r[4] || r[3] == r[5] || r[4] == r[5];
    r
  }

  /**
   * `t in SUPPORTED_SCOUT_DEVICE_TYPES`: Python list membership, which asks
   * whether some entry compares `==` to `t`. Every entry is a string, and `==`
   * against a string is plain equality, so only a string can be supported.
   */
  predicate IsSupported(c: Constants, t: JValue): (r: bool)
    ensures r <==> exists i :: 0 <= i < |SupportedTypes(c)| && PyEq(t, JStr(SupportedTypes(c)[i]))
    ensures r ==> t.JStr?
  {
    t.JStr? && t.s in SupportedTypes(c)
  }

  /** The six device type codes are pairwise different. */
  predicate TypesDistinct(c: Constants) {
    && c.typeDoorPanel != c.typeAccessSensor
    && c.typeDoorPanel != c.typeMotionSensor
    && c.typeDoorPanel != c.typeSmokeAlarm
    && c.typeDoorPanel != c.typeWaterSensor
    && c.typeDoorPanel != c.typeGlassBreak
    && c.typeAccessSensor != c.typeMotionSensor
    && c.typeAccessSensor != c.typeSmokeAlarm
    && c.typeAccessSensor != c.typeWaterSensor
    && c.typeAccessSensor != c.typeGlassBreak
    && c.typeMotionSensor != c.typeSmokeAlarm
    && c.typeMotionSensor != c.typeWaterSensor
    && c.typeMotionSensor != c.typeGlassBreak
    && c.typeSmokeAlarm != c.typeWaterSensor
    && c.typeSmokeAlarm != c.typeGlassBreak
    && c.typeWaterSensor != c.typeGlassBreak
  }
}

=== FILE: sensor_kind.dfy ===
/**
 * A closed enumeration of the supported device kinds and the two decision
 * tables the mapper implements with string comparisons: which trigger
 * state means "on" for each kind, and which host device class each kind
 * gets. The mapper itself compares type strings in `if/elif` order; this
 * module is the reference those chains are proved against.
 */
module SensorKind {
  import opened Wrappers
  import opened Json
  import opened Text
  import opened ScoutConst

  datatype Kind =
    | DoorPanel
    | AccessSensor
    | MotionSensor
    | SmokeAlarm
    | WaterSensor
    | GlassBreak
    | Unsupported

  /** The host platform's binary-sensor device classes the mapper produces. */
  datatype DeviceClass = Door | Window | Opening | Smoke | Motion | Moisture | Vibration

  /** The vendor type code of a supported kind. */
  function TypeCode(c: Constants, k: Kind): (code: string)
    requires k != Unsupported
    ensures code in SupportedTypes(c)
  {
    match k
    case DoorPanel => c.typeDoorPanel
    case AccessSensor => c.typeAccessSensor
    case MotionSensor => c.typeMotionSensor
    case SmokeAlarm => c.typeSmokeAlarm
    case WaterSensor => c.typeWaterSensor
    case GlassBreak => c.typeGlassBreak
  }

  /** The kind a record's `type` value names; anything else is Unsupported. */
  function KindOf(c: Constants, t: JValue): (k: Kind)
    ensures k != Unsupported <==> IsSupported(c, t)
    ensures k != Unsupported ==> t == JStr(TypeCode(c, k))
  {
    if t == JStr(c.typeDoorPanel) then DoorPanel
    else if t == JStr(c.typeAccessSensor) then AccessSensor
    else if t == JStr(c.typeMotionSensor) then MotionSensor
    else if t == JStr(c.typeSmokeAlarm) then SmokeAlarm
    else if t == JStr(c.typeWaterSensor) then WaterSensor
    else if t == JStr(c.typeGlassBreak) then GlassBreak
    else Unsupported
  }

  /** With distinct codes, a kind's code classifies back to that kind. */
  lemma KindOfTypeCode(c: Constants, k: Kind)
    requires TypesDistinct(c) && k != Unsupported
    ensures KindOf(c, JStr(TypeCode(c, k))) == k
  {
  }

  /** A smoke alarm's `co` reading with a missing or null value read as the "ok" literal. */
  function CoOrOk(co: JValue): (r: JValue)
    ensures r != JNull
    ensures co == JNull ==> r == JStr(OkLiteral)
    ensures co != JNull ==> r == co
  {
    if co == JNull then JStr(OkLiteral) else co
  }

  /**
   * When a truthy trigger means "on", per kind. The state is read only for
   * the supported kinds; reading it raises what `trigger['state']` raises.
   */
  function OnRule(c: Constants, k: Kind, trigger: JValue): (r: Result<bool, Fault>)
    ensures k == Unsupported ==> r == Success(false)
    ensures k != Unsupported && !HasKey(trigger, "state") ==> r.Failure?
  {
    if k == Unsupported then Success(false)
    else
      var state :- Subscript(trigger, "state");
      match k
      case DoorPanel => Success(state == JStr(c.stateOpen))
      case AccessSensor => Success(state == JStr(c.stateOpen))
      case MotionSensor => Success(state == JStr(c.stateMotionStart))
      case WaterSensor => Success(state == JStr(c.stateWet))
      case GlassBreak => Success(state != JStr(c.stateOk))
      case SmokeAlarm =>
        var smoke :- Subscript(state, "smoke");
        // `state['smoke']` succeeded, so `state` is a dict and `.get('co')` cannot raise
        var co := Lookup(state.fields, "co").GetOr(JNull);
        Success(smoke != JStr(c.stateOk) || CoOrOk(co) != JStr(c.stateOk))
  }

  /** The fixed part of the device-class table; None sends a kind to the name heuristic. */
  function ClassRule(k: Kind): (r: Option<DeviceClass>)
    ensures r.None? <==> k == AccessSensor || k == Unsupported
  {
    match k
    case DoorPanel => Some(Door)
    case SmokeAlarm => Some(Smoke)
    case MotionSensor => Some(Motion)
    case WaterSensor => Some(Moisture)
    case GlassBreak => Some(Vibration)
    case AccessSensor => None
    case Unsupported => None
  }

  /** The name heuristic: "door" before "window", after ASCII lower-casing, else opening. */
  function NameClass(name: string): (r: DeviceClass)
    ensures r == Door <==> Contains(Lower(name), "door")
    ensures r == Window <==> !Contains(Lower(name), "door") && Contains(Lower(name), "window")
    ensures r == Opening <==> !Contains(Lower(name), "door") && !Contains(Lower(name), "window")
  {
    var lname := Lower(name);
    if Contains(lname, "door") then Door
    else if Contains(lname, "window") then Window
    else Opening
  }
}

=== FILE: setup.dfy ===
/**
 * Entity setup: of the device records the vendor lists, one sensor entity
 * is created per record whose `type` is a supported code, in list order.
 * `d['type']` on a record without a `type` raises and aborts the setup.
 */
module Setup {
  import opened Wrappers
  import opened Json
  import opened ScoutConst
  import opened DeviceRecord

  /** Every record carries a `type`, so the comprehension does not raise. */
  predicate AllTyped(devices: seq<Record>) {
    forall i :: 0 <= i < |devices| ==> "type" in devices[i]
  }

  /** The records an entity is created for, in the order listed. */
  function KeepSupported(c: Constants, devices: seq<Record>): (r: seq<Record>)
    requires AllTyped(devices)
    ensures |r| <= |devices|
    ensures forall x :: x in r ==> x in devices && IsSupported(c, x["type"])
  {
    if devices == [] then []
    else if IsSupported(c, devices[0]["type"]) then [devices[0]] + KeepSupported(c, devices[1..])
    else KeepSupported(c, devices[1..])
  }

  /** Filtering distributes over concatenation: the kept records keep their relative order. */
  lemma {:induction false} KeepSupportedAppend(c: Constants, a: seq<Record>, b: seq<Record>)
    requires AllTyped(a) && AllTyped(b)
    ensures AllTyped(a + b)
    ensures KeepSupported(c, a + b) == KeepSupported(c, a) + KeepSupported(c, b)
    decreases |a|
  {
    if a == [] {
      assert a + b == b;
    } else {
      assert (a + b)[1..] == a[1..] + b;
      KeepSupportedAppend(c, a[1..], b);
    }
  }

  /** A record is kept iff it is listed and its type is supported. */
  lemma {:induction false} KeepSupportedMembership(c: Constants, devices: seq<Record>, x: Record)
    requires AllTyped(devices)
    ensures x in KeepSupported(c, devices) <==> x in devices && IsSupported(c, x["type"])
    decreases |devices|
  {
    if devices != [] {
      KeepSupportedMembership(c, devices[1..], x);
      assert devices == [devices[0]] + devices[1..];
    }
  }

  /** Setting up from the already-kept records keeps all of them. */
  lemma {:induction false} KeepSupportedIdempotent(c: Constants, devices: seq<Record>)
    requires AllTyped(devices)
    ensures AllTyped(KeepSupported(c, devices))
    ensures KeepSupported(c, KeepSupported(c, devices)) == KeepSupported(c, devices)
    decreases |devices|
  {
    if devices != [] {
      KeepSupportedIdempotent(c, devices[1..]);
    }
  }

  /**
   * The list comprehension of `async_setup_entry`: the supported records in
   * order, or the KeyError the first untyped record raises.
   */
  method SetupEntities(c: Constants, devices: seq<Record>) returns (r: Result<seq<Record>, Fault>)
    ensures r.Failure? <==> !AllTyped(devices)
    ensures r.Failure? ==> r.error == KeyError("type")
    ensures r.Success? ==> AllTyped(devices) && r.value == KeepSupported(c, devices)
  {
    var kept: seq<Record> := [];
    var i := 0;
    while i < |devices|
      invariant 0 <= i <= |devices|
      invariant AllTyped(devices[..i])
      invariant kept == KeepSupported(c, devices[..i])
    {
      var d := devices[i];
      if "type" !in d {
        return Failure(KeyError("type"));
      }
      var single := if IsSupported(c, d["type"]) then [d] else [];
      assert devices[..i + 1] == devices[..i] + [d];
      KeepSupportedAppend(c, devices[..i], [d]);
      kept := kept + single;
      i := i + 1;
    }
    assert devices[..i] == devices;
    return Success(kept);
  }
}

=== FILE: text.dfy ===
/**
 * The two string operations the device-class heuristic uses: `str.lower()`,
 * restricted to ASCII letters, and the substring test `needle in hay`.
 */
module Text {

  predicate IsUpper(ch: char) {
    'A' <= ch <= 'Z'
  }

  /** ASCII lowercase of one character; every other character is unchanged. */
  function LowerChar(ch: char): (r: char)
    ensures !IsUpper(r)
    ensures IsUpper(ch) ==> r as int == ch as int + 32
    ensures !IsUpper(ch) ==> r == ch
  {
    if IsUpper(ch) then (ch as int + 32) as char else ch
  }

  /** `s.lower()` on ASCII: the same length, every upper-case letter folded. */
  function Lower(s: string): (r: string)
    ensures |r| == |s|
    ensures forall i :: 0 <= i < |s| ==> r[i] == LowerChar(s[i])
  {
    if s == [] then [] else [LowerChar(s[0])] + Lower(s[1..])
  }

  /** Two names are equal up to ASCII case. */
  predicate SameIgnoringCase(s: string, t: string) {
    |s| == |t| && forall i :: 0 <= i < |s| ==> LowerChar(s[i]) == LowerChar(t[i])
  }

  lemma LowerIdempotent(s: string)
    ensures Lower(Lower(s)) == Lower(s)
  {
    assert forall i :: 0 <= i < |s| ==> LowerChar(LowerChar(s[i])) == LowerChar(s[i]);
  }

  /** Lower-casing identifies exactly the names that differ only in case. */
  lemma LowerEqualIff(s: string, t: string)
    ensures Lower(s) == Lower(t) <==> SameIgnoringCase(s, t)
  {
    if SameIgnoringCase(s, t) {
      assert forall i :: 0 <= i < |s| ==> Lower(s)[i] == Lower(t)[i];
    }
  }

  /** `needle` occurs in `hay` starting at index `i`. */
  predicate OccursAt(hay: string, needle: string, i: int) {
    0 <= i && i + |needle| <= |hay| && hay[i..i + |needle|] == needle
  }

  /** Python's `needle in hay` for strings. */
  function Contains(hay: string, needle: string): (r: bool)
    ensures r <==> exists i :: OccursAt(hay, needle, i)
    decreases |hay|
  {
    if |hay| < |needle| then
      false
    else if hay[..|needle|] == needle then
      assert OccursAt(hay, needle, 0);
      true
    else
      var r := Contains(hay[1..], needle);
      ShiftOccurrence(hay, needle);
      r
  }

  /** An occurrence past index 0 is an occurrence in the tail, and back. */
  lemma ShiftOccurrence(hay: string, needle: string)
    requires |hay| >= |needle| && hay[..|needle|] != needle
    ensures (exists i :: OccursAt(hay, needle, i)) <==> (exists j :: OccursAt(hay[1..], needle, j))
  {
    if exists i :: OccursAt(hay, needle, i) {
      var i :| OccursAt(hay, needle, i);
      assert i != 0;
      assert hay[1..][i - 1..i - 1 + |needle|] == hay[i..i + |needle|];
      assert OccursAt(hay[1..], needle, i - 1);
    }
    if exists j :: OccursAt(hay[1..], needle, j) {
      var j :| OccursAt(hay[1..], needle, j);
      assert hay[1..][j..j + |needle|] == hay[j + 1..j + 1 + |needle|];
      assert OccursAt(hay, needle, j + 1);
    }
  }
}

=== FILE: wrappers.dfy ===
/** Failure-compatible result types shared by the model. */
module Wrappers {

  /** An optional value: Python's "key present / key absent". */
  datatype Option<+T> = None | Some(value: T) {

    /** The wrapped value, or `default` when there is none. */
    function GetOr(default: T): T {
      match this
      case Some(v) => v
      case None => default
    }
  }

  /** The outcome of a Python expression that may raise: a value or the exception it raises. */
  datatype Result<+R, +E> = Success(value: R) | Failure(error: E) {

    predicate IsFailure() {
      Failure?
    }

    function PropagateFailure<U>(): Result<U, E>
      requires Failure?
    {
      Failure(error)
    }

    function Extract(): R
      requires Success?
    {
      value
    }
  }
}
